=== FILE: README.md ===
# anime-cli: input normalisation, package filtering and progress bookkeeping

anime-cli searches an XDCC index for the episodes of a series and downloads them from
IRC bots. This project is a Dafny model of the deterministic layer of its `main`
(`src/main.rs`). That layer sits between the user's input and the IRC downloader:

- `parse_number`: keeps the digits of a line and reads them as a `u16`. No digits read as 0; a value that does not fit is the "Input must be numeric." exit.
- The two input modes, turned into one `Settings` value:
  - command-line options `-q -e -t -r -p`;
  - the five interactive prompts, with their resolution shortcuts and the rule that a "to" of 0 means "the start episode".
- Normalisation of the settings:
  - the resolution is appended to the query;
  - the batch end is clamped so that it is never below the start;
  - the inclusive episode range is fixed;
  - each lookup either gets an episode number or does not.
- The episode loop. It asks the finder once per episode, in order, and keeps a found package only when its file name has an extension (as `Path::extension` computes it on Unix) that is exactly one of the listed audio or video extensions. Zero kept packages end the run.
- The `IRCRequest`: fixed server, channel and nickname, plus bot and package-number lists index-aligned with the kept packages.
- The per-download progress label. It is the file name followed by ": ", shortened around "..." when the terminal width is known.
- Bar creation (one bar per package, then a status bar), and the two progress consumers `update_bar` and `update_status_bar`.

The model follows the source's form:
- Pure computations are functions with lemmas about them: `parse_number`, the resolution matches, the extension test, the range arithmetic and the label.
- The episode loop and the two consumer loops are methods with loop invariants. The in-place query extension and the pushes onto the label buffer are methods without loops. Each of these methods is proved against a specification function.
- A progress bar is a class whose methods update its fields.
- The finder `anime_find::find_package` is an oracle parameter: a function from the query and the optional episode number to a found package or a failure.
- The terminal width is a parameter.
- A channel is the finite sequence of values sent on it.
- Every `exit(1)` and panic that the model covers is an `Err` of `Failures.Failure`. The model does not cover two exits on the path up to the download request: the getopts error exit (src/main.rs:80-86) and the stdin read-error exit (src/main.rs:52-56); both are listed under "Left out". The `unwrap` panic of the label trimming (src/main.rs:198-199) is modelled by `Labels.LabelAsWritten` and reported under "Findings", and the bars are created with the corrected label.

Modules, one per file: `Wrappers`/`Failures` (wrappers.dfy), `Numbers`, `Media`, `Settings`, `Episodes`, `Search`, `Request`, `Labels`, `Progress` and `Run`. `Run.Prepare` chains the steps from the input to the download request.

## Model

| member | source | states |
|---|---|---|
| Numbers.KeepDigits | src/main.rs:285 | the result holds only digits and is no longer than the input |
| Numbers.ParseNumber | src/main.rs:284-297 | succeeds exactly when the value of the kept digits fits a u16, and then returns that value (0 when there are no digits); otherwise it fails with NotNumeric and never wraps |
| Numbers.DecimalString | src/main.rs:139 | `to_string` of a number: canonical decimal text (at least one digit, no leading zero) whose value is the number |
| Numbers.KeepDigitsAppend | src/main.rs:285 | filtering digits distributes over concatenation |
| Numbers.KeepDigitsOfDigits | src/main.rs:285 | a digit string is left unchanged by the filter |
| Numbers.KeepDigitsNone | src/main.rs:285 | a string without digits filters to the empty string |
| Numbers.DecimalValueLowerBound | src/main.rs:286 | a digit string with a non-zero first digit is worth at least 10^(length-1) |
| Numbers.DecimalValueLeadingZero | src/main.rs:286 | a leading zero does not change a digit string's value |
| Numbers.CanonicalIsDecimalString | src/main.rs:139 | canonical decimal text is unique: any digit string without a leading zero is the `to_string` of its value |
| Numbers.DecimalStringSnoc | src/main.rs:139 | the `to_string` of `10 m + d`, for a positive `m` and a digit `d`, is that of `m` followed by `d` |
| Numbers.ParseNumberRoundTrip | src/main.rs:284-297 | parsing the decimal text of any u16 gives that u16 back |
| Numbers.ParseNumberIgnoresNonDigit | src/main.rs:285 | inserting a non-digit anywhere in the input does not change the result |
| Numbers.ParseNumberNoDigits | src/main.rs:289-290 | a line without digits (a blank answer) reads as 0 |
| Numbers.ParseNumberLeadingZero | src/main.rs:286 | a leading zero in the input is ignored |
| Numbers.ParseNumberTooManyDigits | src/main.rs:291-293 | six or more significant digits always take the error exit |
| Media.LastIndexOf | src/main.rs:157 | the index of the last occurrence of a character: it holds that character and none follows it; -1 when absent |
| Media.LastIndexOfIs | src/main.rs:157 | the position of a character with none of it after is the last occurrence |
| Media.FileName | src/main.rs:157 | the file name of a path is never empty, ".", ".." and never contains '/'; FileNameOfJoin and FileNameTrailingSlash say which component it is |
| Media.Extension | src/main.rs:157 | an extension never contains '.' or '/'; ExtensionOfPlainName and ExtensionOfJoin say which text it is |
| Media.PlainFileName | src/main.rs:157 | a name without '/' that is not empty, "." or ".." is its own file name |
| Media.FileNameOfJoin | src/main.rs:157 | the file name of `dir/f` is `f`, whatever `dir` is |
| Media.ExtensionOfJoin | src/main.rs:157 | the extension of `dir/f` is the extension of `f`: directories never contribute to it |
| Media.FileNameTrailingSlash | src/main.rs:157 | a trailing '/' does not change the file name |
| Media.ExtensionOfPlainName | src/main.rs:157 | for a name without '/', the extension is `e` exactly when the name is a non-empty stem, '.', and a dot-free `e` |
| Media.IsMediaFile | src/main.rs:157-167 | a package is kept when its file name has an extension that is in one of the two lists; MediaFileIffListed states it for every name |
| Media.MediaFileIffListed | src/main.rs:157-167 | a stem plus "." plus a dot-free extension is kept exactly when the extension is in one of the two lists |
| Media.MediaExtensionCaseSensitive | src/main.rs:159 | the list test is case-sensitive: "mkv" is listed, "MKV" is not |
| Media.MediaFileNeedsStem | src/main.rs:157-166 | ".mkv" and "mkv" have no extension and are skipped |
| Settings.StripLineBreaks | src/main.rs:57 | the line read has no '\n' or '\r' left and is no longer than the input |
| Settings.StripLineBreaksKeepsPlainLines | src/main.rs:57 | a line without line breaks is unchanged |
| Settings.StripLineBreaksAppend | src/main.rs:57 | the pieces of a line are stripped separately and kept in order |
| Settings.StripLineBreaksAround | src/main.rs:57 | exactly '\n' and '\r' are removed wherever they stand; every other character is kept in its place |
| Settings.StripLineBreaksIdempotent | src/main.rs:57 | stripping twice is stripping once |
| Settings.CliResolution | src/main.rs:98-102 | `-r` absent means 720, exactly the literal "0" means no resolution, anything else is `parse_number` of the text, whose only failure is NotNumeric (the `exit(1)` of parse_number) |
| Settings.CliResolutionOfDecimal | src/main.rs:98-102 | writing a number in decimal asks for exactly that resolution, 0 for none |
| Settings.CliResolutionZeroIsLiteral | src/main.rs:99-100 | "00" is not the literal "0": it asks for resolution 0 |
| Settings.ResolutionShortcut | src/main.rs:118-124 | no resolution exactly for 0; 1, 2 and 3 stand for 480, 720 and 1080; any value above 3 is kept |
| Settings.AsciiLower | src/main.rs:133 | `to_ascii_lowercase`: same length, every ASCII capital becomes its small letter, every other character unchanged |
| Settings.PlayAnswer | src/main.rs:133 | the play answer is "y" once lowered; PlayAnswerIff states which lines those are |
| Settings.PlayAnswerIff | src/main.rs:133 | playback is asked for by exactly "y" or "Y" |
| Settings.FromCli | src/main.rs:96-112 | in command-line mode it succeeds exactly when the resolution parses, `-q` is given and `-e`/`-t` parse when given; the query and play flag are taken as given, the resolution is `CliResolution`, start and end are present exactly when `-e`/`-t` are and are their parsed values; a missing query fails with MissingQuery once the resolution parsed, any other failure is NotNumeric |
| Settings.OptionalNumber | src/main.rs:106-112 | an absent option is no number; a given one is its `parse_number` value, or the NotNumeric failure |
| Settings.FromPrompt | src/main.rs:117-133 | in prompt mode it succeeds exactly when the three numeric answers parse, and fails only with NotNumeric; the query is the stripped name; the resolution is the shortcut of the parsed answer; a start of 0 is no start, any other start is kept; a non-zero "to" is the end, a "to" of 0 makes the end equal the start; play exactly for a "y" answer |
| Settings.PromptResolutionOfDecimal | src/main.rs:118-124 | a prompt answer above 3 written in decimal is taken as that resolution |
| Settings.SettingsOf | src/main.rs:70-134 | reading the settings, in either mode, fails only on a number that does not fit a u16 or, on the command line, a missing query |
| Episodes.QueryWithResolution | src/main.rs:136-140 | without a resolution the query is unchanged; with one it is the query, a space, and the canonical decimal text of the resolution (which parses back to it) |
| Episodes.ClampLastEp | src/main.rs:142-144 | the clamped end is never below the start (1 when none); an end at or above the start is kept, a smaller one becomes the start, an absent one stays absent |
| Episodes.FinderArg | src/main.rs:155 | the finder gets an episode number exactly when a start or an end is set, and that number is the loop index |
| Episodes.FinderArgOfInput | src/main.rs:142-155 | measured on the user's input, an episode number is sent exactly when a start was given or an end of at least 1 was |
| Episodes.PlanOf | src/main.rs:136-149 | the range is non-empty, starts at the start episode (1 by default) and ends at the clamped end; the plan keeps the start and the clamped end that decide the finder's argument; the query carries the resolution; the plan fails with EpisodeOverflow exactly when the end is 65535, where `last + 1` overflows |
| Episodes.Normalise | src/main.rs:136-149 | the in-place query extension and `last_ep` reassignment compute `PlanOf` |
| Episodes.NeitherGivenSearchesOnce | src/main.rs:149-155 | with neither a start nor an end, the range is episode 1 alone, looked up without a number |
| Episodes.PromptToZeroIsSingleEpisode | src/main.rs:129-149 | answering 0 to "To this episode" searches the start episode alone |
| Search.EpisodeCount | src/main.rs:149 | the number of loop iterations never runs past 65535 |
| Search.LookupsBefore | src/main.rs:149-155 | one finder answer per iteration so far |
| Search.Lookups | src/main.rs:149-155 | one finder answer per iteration of the whole range |
| Search.LookupsAt | src/main.rs:149-155 | the answer at position j is the finder's answer for episode first + j |
| Search.KeepMedia | src/main.rs:157-167 | the filter never yields more packages than answers |
| Search.KeepMediaAppend | src/main.rs:146-173 | filtering distributes over concatenation, so kept packages stay in loop order |
| Search.KeepMediaSnoc | src/main.rs:157-167 | one more answer adds its package exactly when it is a found media file, and otherwise changes nothing |
| Search.KeepMediaMembership | src/main.rs:157-167 | a package is kept exactly when the finder returned it and its file name has a listed extension |
| Search.KeepMediaStep | src/main.rs:155-167 | the effect of one iteration on the kept list |
| Search.SearchOne | src/main.rs:155-172 | one iteration pushes the package and increments the count when it is a found media file, and otherwise leaves both unchanged |
| Search.SearchDone | src/main.rs:149-173 | when the loop index passes the end, the kept list is the filter over all the answers |
| Search.SearchEpisodes | src/main.rs:146-173 | the loop collects exactly the filter of the finder's answers in loop order, and `num_episodes` equals the number of kept packages |
| Search.SingleLookupWithoutEpisode | src/main.rs:149-155 | a one-episode plan without start or end makes exactly one lookup, without an episode number |
| Search.LookupOrder | src/main.rs:149-155 | the i-th lookup is for episode first + i, numbered exactly when a start or end is set |
| Request.BuildRequest | src/main.rs:235-241 | the fixed server, channel and nickname; bot and package lists as long as the kept packages, index-aligned with them, each package entry the canonical decimal text (no leading zero) of that package's number |
| Request.BuildRequestAppend | src/main.rs:239-240 | the request lists of a concatenation are the concatenated lists, so order is kept |
| Labels.Utf8Len | src/main.rs:196 | a string's UTF-8 length is between its character count and four times it |
| Labels.Utf8LenAscii | src/main.rs:196 | for ASCII text, the byte length is the character count |
| Labels.LabelAsWritten | src/main.rs:195-208 | the code as written panics exactly when the width is known, the byte length exceeds half the width, and there are at most (w/2)/2 characters; a name of at most w/2 bytes, or any name without a width, is shown whole with ": "; otherwise the label is the trimmed name and ": " |
| Labels.Trimmed | src/main.rs:196-205 | a trimmed name is exactly the first (w/2)/2 characters on narrow terminals (none when w/2 >= 50), then "...", then the last (w/2)/2+1 characters |
| Labels.Label | src/main.rs:195-208 | the intended label always ends in ": "; it is the whole name when there is no width or the name has at most w/2 characters; otherwise it is exactly the head (on narrow terminals), "..." and the tail, at most w/2+6 long |
| Labels.LabelAgreesOnAscii | src/main.rs:195-208 | on ASCII names the code as written and the intended label coincide |
| Labels.LabelAsWrittenPanics | src/main.rs:196-198 | a two-character, six-byte name on an 8-column terminal panics as written, where the intended label is the whole name |
| Progress.Bar.constructor | src/main.rs:210 | a new bar has the given total, position 0, no message and is not finished |
| Progress.Bar.Set | src/main.rs:277 | sets the position and changes nothing else |
| Progress.Bar.Inc | src/main.rs:266 | advances the position by one and changes nothing else |
| Progress.Bar.SetMessage | src/main.rs:212 | replaces the message and changes nothing else |
| Progress.Bar.Finish | src/main.rs:279 | marks the bar finished and fills its position up to its total; total and message unchanged |
| Progress.Filled | src/main.rs:279 | the position after `finish`: the larger of the position and the total |
| Progress.SentinelAt | src/main.rs:275-280 | the position of the first non-positive value: every value before it is positive |
| Progress.SentinelAtIgnoresRest | src/main.rs:279 | values after the sentinel do not change where the stream stops |
| Progress.UpdateBar | src/main.rs:273-282 | the bar follows the positive values up to the sentinel; a sentinel finishes it and fills it to its total; without one it stays at the last value, unfinished; total and message unchanged |
| Progress.SentinelAtIs | src/main.rs:275-280 | the first index that is not positive is the sentinel position |
| Progress.SuccessAt | src/main.rs:267 | the position of the first "Success": no earlier message is "Success" |
| Progress.Completions | src/main.rs:266 | the number of completion markers among the first n messages is at most n |
| Progress.UpdateStatusBar | src/main.rs:260-271 | the position advances once per completion marker before the first "Success"; "Success" finishes the bar and fills it to its total; the bar is finished exactly when "Success" arrived; the message is the last message read, followed by a space |
| Progress.ReadStatus | src/main.rs:262-268 | one message: it is shown, a completion marker advances the bar by one, "Success" finishes it and stops the loop, anything else changes nothing more |
| Progress.CompletionsOfPrefix | src/main.rs:262-266 | the count over the first n messages ignores whatever arrives later |
| Progress.SuccessAtIs | src/main.rs:262-267 | the first index holding "Success" is the stop position |
| Progress.SuccessAtIgnoresRest | src/main.rs:267 | messages after "Success" are never read |
| Progress.CompletionsOfMarkers | src/main.rs:266 | n completion markers in a row count n |
| Progress.StatusBarReachesTotal | src/main.rs:223-271 | one completion marker per download and then "Success" stop at "Success" having counted one completion per download |
| Progress.RunStatusBar | src/main.rs:223-271 | the status bar created with the number of downloads as its total and fed one completion marker per download and then "Success" ends finished at exactly its total |
| Progress.AppendLabel | src/main.rs:195-208 | pushing one download's label onto the buffer appends exactly the intended label |
| Progress.AppendTrimmed | src/main.rs:197-204 | the pushes of the trimming branch append exactly the trimmed name |
| Progress.LabelledBar | src/main.rs:210-212 | a new bar with the given total and message, at position 0, unfinished |
| Progress.CreateBars | src/main.rs:190-225 | one new bar per package, the bars pairwise distinct, each sized by its package and labelled with its intended label (the buffer is empty again after each bar), then a distinct status bar sized by the number of packages and showing "Waiting...: " |
| Progress.DistinctSnoc | src/main.rs:190-221 | adding a bar that is not yet in a list of pairwise distinct bars keeps the list pairwise distinct |
| Run.PlayList | src/main.rs:243-248 | a player is started exactly when play was asked for and there is one file or the mpv feature is on; it gets the file names in package order |
| Run.Prepare | src/main.rs:60-248 | input failures and the overflow propagate; the run stops with NothingToDownload exactly when no media file was found, and succeeds whenever one was; the download then has exactly the filtered answers in loop order, the query as folder, the request built from them and the play list |

## Left out

- `anime_find::find_package` and `anime_dl::connect_and_download` are not part of this model. The finder is an oracle parameter. The IRC session, the DCC transfers and the download's own failure exit (src/main.rs:250-253) are not modelled.
- Threads and `mpsc` channels (src/main.rs:185-233, 254-257): a channel is the finite sequence of its values, and each consumer reads it until its sentinel or the end of the sequence. Concurrency and joining are not modelled.
- `pbr` is not part of this model. A bar is its total, position, message and finished flag, and `set`, `inc`, `message` and `finish` change them as pbr documents (`finish` fills the bar up to its total). Rendering (`tick`, `set_units`, `multi_bar.listen`) is not modelled.
- Progress.CreateBars, Progress.AppendLabel, Progress.AppendTrimmed: the trimming decision compares the name's character count with half the width, where src/main.rs:196 compares its byte length, so the bars are labelled with the corrected `Labels.Label`, not with the code as written. The two differ only for a name with non-ASCII characters on a terminal of known width (`Labels.LabelAgreesOnAscii`); there the program may panic or trim differently (see "Findings").
- `play_video` (src/main.rs:299-393): only the decision to start a player and the list of file names it gets are modelled.
- `fs::create_dir` and the folder path (src/main.rs:177-181): only the folder name, which is the final query, is modelled. A failure to create the folder only prints a message and is not modelled.
- `term_size::dimensions()`: the width is a parameter.
- Media.FileName, Media.Extension: paths are Unix paths, split on '/' only; the Windows forms of `Path` ('\\' separators, drive and UNC prefixes) are not modelled.
- `getopts` parsing errors, the `-h` help path and `print_usage` (src/main.rs:70-94): the model starts from the options already parsed, and the choice between the two modes is the `Invocation` value.
- `get_cli_input` read errors (src/main.rs:52-56) and the console messages: prompt answers are given as strings.
- Numbers.ParseNumber: a digit is an ASCII '0'-'9'. Rust's `char::is_numeric` also keeps other Unicode numerals, on which `u16::parse` then fails (the error exit). The model drops those characters instead.
- Package sizes and numbers are unbounded naturals; the `as u64` casts of the size and of the package count are not modelled.
- Progress.UpdateBar: the values are unbounded integers rather than `i64`, and `progress as u64` is the value itself (it is positive there).
- Episodes.PlanOf: an end of 65535 is the EpisodeOverflow failure. In a debug build `last + 1` panics; in a release build it wraps, the range is empty, and the run then exits because nothing was found. Both builds fail.
- Settings.FromCli: a missing `-q` is the MissingQuery failure, modelling the panic of `unwrap`.
- Run.Prepare: its ensures does not restate that every package is a media file with a listed extension. That follows from `packages == KeepMedia(Lookups(..))` and `Search.KeepMediaMembership`.

## Findings

| source | as written | input that shows it | evidently intended | confidence | as-written member | corrected member |
|---|---|---|---|---|---|---|
| src/main.rs:196-199 | the name's length in UTF-8 bytes is compared with half the width, but the name is cut at character positions `(w/2)/2` with `unwrap` | width 8 and the file name "日本" (2 characters, 6 bytes): 6 > 4, but there is no character at index 2, so `unwrap` panics | decide on the character count, so that a name of at most w/2 characters is shown whole | high, not executed | Labels.LabelAsWritten, Labels.LabelAsWrittenPanics | Labels.Label |

=== FILE: episodes.dfy ===
/**
 * Normalisation done in main before searching: the resolution is appended to the
 * query, the batch end is clamped so that it is never below the start, and the
 * inclusive episode range and the episode argument of each lookup are fixed.
 */
module Episodes {
  import opened Wrappers
  import opened Failures
  import opened Numbers
  import opened Settings

  /** What the episode loop runs over: query, the (clamped) options and `first..=last`. */
  datatype SearchPlan = SearchPlan(
    query: string,
    episode: Option<u16>,
    lastEp: Option<u16>,
    first: u16,
    last: u16)

  /** `query.push(' '); query.push_str(&res.to_string())` when a resolution is set. */
  function QueryWithResolution(query: string, res: Option<u16>): (q: string)
    ensures res.None? ==> q == query
    ensures res.Some? ==>
      |q| > |query| + 1 && q[..|query|] == query && q[|query|] == ' ' &&
      Canonical(q[|query| + 1..]) && DecimalValue(q[|query| + 1..]) == res.value
    ensures res.Some? ==> ParseNumber(q[|query| + 1..]) == Ok(res.value)
  {
    match res
    case None => query
    case Some(r) =>
      var q := query + [' '] + DecimalString(r);
      assert q[|query| + 1..] == DecimalString(r);
      ParseNumberRoundTrip(r);
      q
  }

  /** main.rs:142-144: an end below the start (1 when no start) is replaced by the start. */
  function ClampLastEp(episode: Option<u16>, lastEp: Option<u16>): (r: Option<u16>)
    ensures episode.GetOr(1) <= r.GetOr(episode.GetOr(1))
    ensures lastEp.Some? && lastEp.value >= episode.GetOr(1) ==> r == lastEp
    ensures lastEp.None? ==> r.None?
    ensures lastEp.Some? && lastEp.value < episode.GetOr(1) ==> r == episode
  {
    if lastEp.Some? && lastEp.value < episode.GetOr(1) then episode else lastEp
  }

  /**
   * `episode.or(last_ep).and(Some(i))`: the finder is asked about episode `i` exactly
   * when a start or an end is set, and about no episode otherwise.
   */
  function FinderArg(episode: Option<u16>, lastEp: Option<u16>, i: u16): (r: Option<u16>)
    ensures r.Some? <==> episode.Some? || lastEp.Some?
    ensures r.Some? ==> r.value == i
  {
    episode.Or(lastEp).And(Some(i))
  }

  /**
   * Measured against what the user typed (before clamping): an episode number reaches
   * the finder exactly when a start was given, or an end of at least 1 was. A lone
   * end of 0 is clamped away and the single lookup is then made without a number.
   */
  lemma FinderArgOfInput(episode: Option<u16>, lastEp: Option<u16>, i: u16)
    ensures FinderArg(episode, ClampLastEp(episode, lastEp), i).Some? <==>
      episode.Some? || (lastEp.Some? && lastEp.value >= 1)
  {
  }

  /** main.rs:136-149, as a value: the plan, or the overflow of `last + 1`. */
  function PlanOf(s: Settings): (r: Result<SearchPlan, Failure>)
    ensures r.Ok? ==> r.value.first <= r.value.last
    ensures r.Ok? ==> r.value.query == QueryWithResolution(s.query, s.resolution)
    ensures r.Ok? ==> r.value.first == s.episode.GetOr(1)
    ensures r.Ok? ==> r.value.episode == s.episode && r.value.lastEp == ClampLastEp(s.episode, s.lastEp)
    ensures r.Ok? ==> (r.value.last ==
      if s.lastEp.Some? && s.lastEp.value > s.episode.GetOr(1) then s.lastEp.value else s.episode.GetOr(1))
    ensures r.Err? <==> (s.lastEp.Some? && s.lastEp.value == 0xFFFF) || s.episode == Some(0xFFFF)
    ensures r.Err? ==> r.error == EpisodeOverflow
  {
    var lastEp := ClampLastEp(s.episode, s.lastEp);
    var first := s.episode.GetOr(1);
    var last := lastEp.GetOr(first);
    if last == 0xFFFF then Err(EpisodeOverflow)
    else Ok(SearchPlan(QueryWithResolution(s.query, s.resolution), s.episode, lastEp, first, last))
  }

  /** The imperative form of main.rs:136-149: the query is extended in place and `last_ep` reassigned. */
  method Normalise(s: Settings) returns (r: Result<SearchPlan, Failure>)
    ensures r == PlanOf(s)
  {
    var query := s.query;
    if s.resolution.Some? {
      query := query + [' '];
      query := query + DecimalString(s.resolution.value);
    }
    var lastEp := s.lastEp;
    if lastEp.Some? && lastEp.value < s.episode.GetOr(1) {
      lastEp := s.episode;
    }
    var first := s.episode.GetOr(1);
    var last := lastEp.GetOr(first);
    if last == 0xFFFF {
      // `last + 1` overflows u16: a panic in a debug build, an empty range (and so the
      // "nothing found" exit) in a release build.
      return Err(EpisodeOverflow);
    }
    r := Ok(SearchPlan(query, s.episode, lastEp, first, last));
  }

  /** With neither a start nor an end, the loop runs once, for episode 1, without a number. */
  lemma NeitherGivenSearchesOnce(s: Settings)
    requires s.episode.None? && s.lastEp.None?
    ensures PlanOf(s).Ok?
    ensures PlanOf(s).value.first == 1 == PlanOf(s).value.last
    ensures FinderArg(PlanOf(s).value.episode, PlanOf(s).value.lastEp, 1).None?
  {
  }

  /** Prompt mode: answering 0 to "To this episode" searches the start episode alone. */
  lemma PromptToZeroIsSingleEpisode(a: PromptAnswers, s: Settings)
    requires FromPrompt(a) == Ok(s) && ParseNumber(StripLineBreaks(a.to)) == Ok(0)
    requires s.episode != Some(0xFFFF)
    ensures PlanOf(s).Ok? && PlanOf(s).value.first == PlanOf(s).value.last == s.episode.GetOr(1)
  {
  }
}

=== FILE: labels.dfy ===
/**
 * The text shown in front of each download's progress bar (main.rs:195-208): the file
 * name followed by ": ", with the middle of a long name replaced by "..." when the
 * terminal width is known.
 *
 * The code compares the name's length in UTF-8 BYTES (`String::len`) with half the
 * width, but cuts it at CHARACTER positions (`char_indices().nth(..).unwrap()`). For a
 * name with multi-byte characters the cut position may not exist and `unwrap` panics.
 * `LabelAsWritten` models the code as it stands; `Label` compares the character count,
 * never fails, and is what the rest of the model uses.
 */
module Labels {
  import opened Wrappers

  /** Number of bytes of `c` in UTF-8. */
  function Utf8Width(c: char): nat {
    if c as int < 0x80 then 1
    else if c as int < 0x800 then 2
    else if c as int < 0x1_0000 then 3
    else 4
  }

  /** `String::len`: the length of `s` in UTF-8 bytes. */
  function Utf8Len(s: string): (n: nat)
    ensures |s| <= n <= 4 * |s|
  {
    if s == [] then 0 else Utf8Width(s[0]) + Utf8Len(s[1..])
  }

  predicate IsAscii(s: string) {
    forall i :: 0 <= i < |s| ==> s[i] as int < 0x80
  }

  /** For ASCII text, bytes and characters are the same count. */
  lemma {:induction false} Utf8LenAscii(s: string)
    requires IsAscii(s)
    ensures Utf8Len(s) == |s|
  {
    if s != [] {
      Utf8LenAscii(s[1..]);
    }
  }

  /**
   * The label as main.rs computes it, None where it panics. With half-width `a` and
   * `k = a / 2`: a name of more than `a` bytes becomes its first `k` characters (only
   * when `a < 50`), "...", and its last `k + 1` characters.
   */
  function LabelAsWritten(filename: string, width: Option<nat>): (r: Option<string>)
    ensures r.None? <==>
      width.Some? && Utf8Len(filename) > width.value / 2 && |filename| <= width.value / 2 / 2
    ensures width.None? ==> r == Some(filename + ": ")
    ensures width.Some? && Utf8Len(filename) <= width.value / 2 ==> r == Some(filename + ": ")
    ensures width.Some? && Utf8Len(filename) > width.value / 2 && r.Some? ==>
      r == Some(Trimmed(filename, width.value / 2) + ": ")
  {
    match width
    case Some(w) =>
      if Utf8Len(filename) > w / 2 then
        var k := w / 2 / 2;
        if |filename| <= k then None  // `char_indices().nth(k)` is None: unwrap panics
        else
          var firstHalf := filename[..k];
          var secondHalf := filename[|filename| - (k + 1)..];
          Some((if w / 2 < 50 then firstHalf else "") + "..." + secondHalf + ": ")
      else Some(filename + ": ")
    case None => Some(filename + ": ")
  }

  /**
   * A name cut for a half-width of `half`: with `k = half / 2`, its first `k`
   * characters when `half < 50`, "...", and its last `k + 1` characters, nothing else.
   */
  function Trimmed(filename: string, half: nat): (r: string)
    requires |filename| > half / 2
    ensures var p := if half < 50 then half / 2 else 0;
      |r| == p + 3 + half / 2 + 1 &&
      r[..p] == filename[..p] && r[p..p + 3] == "..." &&
      r[p + 3..] == filename[|filename| - (half / 2 + 1)..]
  {
    var k := half / 2;
    var head := if half < 50 then filename[..k] else "";
    var tail := filename[|filename| - (k + 1)..];
    var r := head + "..." + tail;
    assert r[|head| + 3..] == tail;
    assert r[..|head|] == head;
    assert r[|head|..|head| + 3] == "...";
    r
  }

  /**
   * The intended label: trimming is decided on the character count, so it never
   * fails. It always ends in ": "; without a known width, or for a name of at most
   * half the width, it is the whole name; otherwise it is the head (on narrow
   * terminals), "..." and the tail of the name, and it never exceeds half the width
   * by more than 6 characters.
   */
  function Label(filename: string, width: Option<nat>): (r: string)
    ensures |r| >= 2 && r[|r| - 2..] == ": "
    ensures width.None? || |filename| <= width.value / 2 ==> r == filename + ": "
    ensures width.Some? ==> |r| <= width.value / 2 + 6
    ensures width.Some? && |filename| > width.value / 2 ==>
      var p := if width.value / 2 < 50 then width.value / 2 / 2 else 0;
      var m := width.value / 2 / 2 + 1;
      |r| == p + 3 + m + 2 && r[..p] == filename[..p] && r[p..p + 3] == "..." &&
      r[p + 3..|r| - 2] == filename[|filename| - m..]
  {
    match width
    case Some(w) =>
      if |filename| > w / 2 then
        var t := Trimmed(filename, w / 2);
        var r := t + ": ";
        assert r[..|t|] == t;
        assert r[|r| - 2..] == ": ";
        r
      else filename + ": "
    case None => filename + ": "
  }

  /** On ASCII names the code as written and the intended label coincide. */
  lemma LabelAgreesOnAscii(filename: string, width: Option<nat>)
    requires IsAscii(filename)
    ensures LabelAsWritten(filename, width) == Some(Label(filename, width))
  {
    Utf8LenAscii(filename);
  }

  /**
   * Two three-byte characters on an 8-column terminal: 6 bytes exceed 8 / 2, but
   * there is no character at index (8 / 2) / 2 = 2, so the code panics where the
   * intended label shows the whole name.
   */
  lemma LabelAsWrittenPanics()
    ensures LabelAsWritten("\U{65E5}\U{672C}", Some(8)).None?
    ensures Label("\U{65E5}\U{672C}", Some(8)) == "\U{65E5}\U{672C}: "
  {
    assert Utf8Len("\U{65E5}\U{672C}") == 6 by {
      assert "\U{65E5}\U{672C}"[1..] == "\U{672C}";
    }
  }
}

=== FILE: media.dfy ===
/**
 * The media-file test applied to every package the finder returns: the extension of
 * the package's file name, as Rust's `Path::extension` computes it, must be exactly
 * (case-sensitively) one of the audio or video extensions.
 */
module Media {
  import opened Wrappers

  const AudioExtensions: seq<string> :=
    ["aif", "cda", "mid", "midi", "mp3", "mpa", "ogg", "wav", "wma", "wpl"]

  const VideoExtensions: seq<string> :=
    ["3g2", "3gp", "avi", "flv", "h264", "m4v", "mkv", "mov", "mp4", "mpg",
     "mpeg", "rm", "swf", "vob", "wmv"]

  predicate IsMediaExtension(ext: string) {
    ext in AudioExtensions || ext in VideoExtensions
  }

  /** Index of the last occurrence of `c` in `s`, or -1 when there is none. */
  function LastIndexOf(s: string, c: char): (i: int)
    ensures -1 <= i < |s|
    ensures i >= 0 ==> s[i] == c
    ensures forall j :: i < j < |s| ==> s[j] != c
  {
    if s == [] then -1
    else if s[|s| - 1] == c then |s| - 1
    else LastIndexOf(s[..|s| - 1], c)
  }

  /** A component `Path::components` drops: an empty one or ".". */
  predicate IsSkipped(c: string) {
    |c| == 0 || (|c| == 1 && c[0] == '.')
  }

  predicate IsParent(c: string) {
    |c| == 2 && c[0] == '.' && c[1] == '.'
  }

  /**
   * `Path::file_name`: the last component of a '/'-separated path. Empty and "."
   * components are skipped, a final ".." has no file name, and neither has a path
   * made only of separators and "." components.
   */
  function FileName(path: string): (r: Option<string>)
    ensures r.Some? ==> !IsSkipped(r.value) && !IsParent(r.value)
    ensures r.Some? ==> '/' !in r.value
    decreases |path|
  {
    var i := LastIndexOf(path, '/');
    var last := path[i + 1..];
    if IsSkipped(last) then
      if i < 0 then None else FileName(path[..i])
    else if IsParent(last) then None
    else
      assert '/' !in last by {
        forall j | 0 <= j < |last| ensures last[j] != '/' {
          assert last[j] == path[i + 1 + j];
        }
      }
      Some(last)
  }

  /**
   * `Path::extension`: what follows the last '.' of the file name, provided that dot
   * is not the name's first character; None when the name has no such dot.
   */
  function Extension(path: string): (r: Option<string>)
    ensures r.Some? ==> '.' !in r.value && '/' !in r.value
  {
    match FileName(path)
    case None => None
    case Some(name) =>
      var d := LastIndexOf(name, '.');
      var ext := name[d + 1..];
      assert forall j :: 0 <= j < |ext| ==> ext[j] == name[d + 1 + j];
      if d <= 0 then None else Some(ext)
  }

  /** A plain name is its own file name. */
  lemma PlainFileName(f: string)
    requires '/' !in f && !IsSkipped(f) && !IsParent(f)
    ensures FileName(f) == Some(f)
  {
    assert LastIndexOf(f, '/') == -1;
    assert f[0..] == f;
  }

  /** The last occurrence is the one with none after it. */
  lemma LastIndexOfIs(s: string, c: char, i: nat)
    requires i < |s| && s[i] == c
    requires forall j :: i < j < |s| ==> s[j] != c
    ensures LastIndexOf(s, c) == i
  {
  }

  /** The file name of a path is its last component, whatever directories precede it. */
  lemma FileNameOfJoin(dir: string, f: string)
    requires '/' !in f && !IsSkipped(f) && !IsParent(f)
    ensures FileName(dir + "/" + f) == Some(f)
  {
    var path := dir + "/" + f;
    forall j | |dir| < j < |path| ensures path[j] != '/' {
      assert path[j] == f[j - |dir| - 1];
    }
    LastIndexOfIs(path, '/', |dir|);
    assert path[|dir| + 1..] == f;
  }

  /** The directories in front of a file name do not change its extension. */
  lemma ExtensionOfJoin(dir: string, f: string)
    requires '/' !in f && !IsSkipped(f) && !IsParent(f)
    ensures Extension(dir + "/" + f) == Extension(f)
  {
    FileNameOfJoin(dir, f);
    PlainFileName(f);
  }

  /** A trailing separator does not change the file name: empty components are skipped. */
  lemma FileNameTrailingSlash(path: string)
    ensures FileName(path + "/") == FileName(path)
  {
    var p := path + "/";
    assert LastIndexOf(p, '/') == |path|;
    assert p[|path| + 1..] == [];
    assert p[..|path|] == path;
  }

  /** The test of main.rs:157-167: keep a package only for a listed extension. */
  predicate IsMediaFile(filename: string) {
    match Extension(filename)
    case Some(ext) => IsMediaExtension(ext)
    case None => false
  }

  /**
   * For a plain file name (no '/'), the extension is `e` exactly when the name is some
   * non-empty stem, a dot and `e`, and `e` holds no further dot.
   */
  lemma ExtensionOfPlainName(f: string, e: string)
    requires '/' !in f
    ensures Extension(f) == Some(e) <==>
      f != ".." && |f| > |e| + 1 && f[|f| - |e| - 1] == '.' && f[|f| - |e|..] == e && '.' !in e
  {
    var p := |f| - |e| - 1;
    assert LastIndexOf(f, '/') == -1;
    assert f[0..] == f;
    if f != ".." && |f| > |e| + 1 && f[p] == '.' && f[p + 1..] == e && '.' !in e {
      assert FileName(f) == Some(f);
      var d := LastIndexOf(f, '.');
      assert forall j :: p < j < |f| ==> f[j] == e[j - p - 1];
      assert d == p;
    }
  }

  /**
   * A plain name with a stem and a dot-free extension is kept exactly when that
   * extension is listed.
   */
  lemma MediaFileIffListed(stem: string, ext: string)
    requires '/' !in stem && '/' !in ext && '.' !in ext && stem != []
    ensures IsMediaFile(stem + "." + ext) <==> IsMediaExtension(ext)
  {
    var f := stem + "." + ext;
    assert f[|f| - |ext|..] == ext;
    assert f[|f| - |ext| - 1] == '.';
    ExtensionOfPlainName(f, ext);
    if f == ".." {
      assert ext == [];
      assert LastIndexOf(f, '/') == -1;
    }
  }

  /** The comparison does not fold case: upper-case spellings are not listed. */
  lemma MediaExtensionCaseSensitive()
    ensures IsMediaExtension("mkv") && !IsMediaExtension("MKV")
  {
    assert VideoExtensions[6] == "mkv";
  }

  /** A name that is only a dot and an extension, or has no dot, has no extension. */
  lemma MediaFileNeedsStem()
    ensures !IsMediaFile(".mkv")
    ensures !IsMediaFile("mkv")
  {
    assert LastIndexOf(".mkv", '/') == -1;
    assert LastIndexOf("mkv", '/') == -1;
  }
}

=== FILE: numbers.dfy ===
/**
 * Decimal numbers as the program reads and writes them: `parse_number`, which keeps the
 * digits of a line and parses them as a u16, and `to_string` on integers, which the
 * program uses to append a resolution to the query and to name a package number.
 */
module Numbers {
  import opened Wrappers
  import opened Failures

  /** Rust's `u16`. */
  type u16 = x: int | 0 <= x < 0x1_0000

  predicate IsDigit(c: char) {
    '0' <= c <= '9'
  }

  predicate AllDigits(s: string) {
    forall i :: 0 <= i < |s| ==> IsDigit(s[i])
  }

  function DigitValue(c: char): (d: nat)
    requires IsDigit(c)
    ensures d < 10
  {
    (c as int) - ('0' as int)
  }

  function DigitChar(d: nat): (c: char)
    requires d < 10
    ensures IsDigit(c) && DigitValue(c) == d
  {
    (('0' as int) + d) as char
  }

  /** The value of a string of decimal digits, most significant first. */
  function DecimalValue(s: string): nat
    requires AllDigits(s)
  {
    if s == [] then 0 else 10 * DecimalValue(s[..|s| - 1]) + DigitValue(s[|s| - 1])
  }

  function Pow10(n: nat): (p: nat)
    ensures p >= 1
  {
    if n == 0 then 1 else 10 * Pow10(n - 1)
  }

  /** `str.replace(|c| !c.is_numeric(), "")`: the digits of `s`, in order. */
  function KeepDigits(s: string): (r: string)
    ensures AllDigits(r)
    ensures |r| <= |s|
  {
    if s == [] then [] else (if IsDigit(s[0]) then [s[0]] else []) + KeepDigits(s[1..])
  }

  /**
   * `parse_number`: the value of the digits of `s`; no digits at all is 0 (the
   * "cannot parse integer from empty string" case); a value that does not fit a u16
   * is the "Input must be numeric." exit, never a wrapped value.
   */
  function ParseNumber(s: string): (r: Result<u16, Failure>)
    ensures r.Ok? <==> DecimalValue(KeepDigits(s)) < 0x1_0000
    ensures r.Ok? ==> r.value == DecimalValue(KeepDigits(s))
    ensures r.Err? ==> r.error == NotNumeric
  {
    var digits := KeepDigits(s);
    if digits == [] then Ok(0)
    else if DecimalValue(digits) < 0x1_0000 then Ok(DecimalValue(digits))
    else Err(NotNumeric)
  }

  /** Decimal text as `to_string` writes it: at least one digit and no leading zero. */
  predicate Canonical(s: string) {
    |s| >= 1 && AllDigits(s) && (|s| > 1 ==> s[0] != '0')
  }

  /** `to_string` on a non-negative integer: decimal digits without leading zeros. */
  function DecimalString(n: nat): (s: string)
    ensures Canonical(s)
    ensures DecimalValue(s) == n
  {
    if n < 10 then [DigitChar(n)]
    else
      var prefix := DecimalString(n / 10);
      var s := prefix + [DigitChar(n % 10)];
      assert s[..|s| - 1] == prefix;
      s
  }

  lemma {:induction false} KeepDigitsAppend(a: string, b: string)
    ensures KeepDigits(a + b) == KeepDigits(a) + KeepDigits(b)
  {
    if a == [] {
      assert a + b == b;
    } else {
      assert (a + b)[0] == a[0] && (a + b)[1..] == a[1..] + b;
      KeepDigitsAppend(a[1..], b);
    }
  }

  lemma {:induction false} KeepDigitsOfDigits(s: string)
    requires AllDigits(s)
    ensures KeepDigits(s) == s
  {
    if s != [] {
      KeepDigitsOfDigits(s[1..]);
    }
  }

  lemma {:induction false} KeepDigitsNone(s: string)
    requires forall i :: 0 <= i < |s| ==> !IsDigit(s[i])
    ensures KeepDigits(s) == []
  {
    if s != [] {
      KeepDigitsNone(s[1..]);
    }
  }

  /** A digit string whose first digit is not zero is worth at least 10^(length - 1). */
  lemma {:induction false} DecimalValueLowerBound(s: string)
    requires AllDigits(s) && |s| >= 1 && s[0] != '0'
    ensures DecimalValue(s) >= Pow10(|s| - 1)
  {
    if |s| > 1 {
      var prefix := s[..|s| - 1];
      DecimalValueLowerBound(prefix);
    }
  }

  /** Leading zeros do not change the value. */
  lemma {:induction false} DecimalValueLeadingZero(s: string)
    requires AllDigits(s)
    ensures AllDigits(['0'] + s) && DecimalValue(['0'] + s) == DecimalValue(s)
  {
    if s != [] {
      var t := ['0'] + s;
      assert t[..|t| - 1] == ['0'] + s[..|s| - 1];
      DecimalValueLeadingZero(s[..|s| - 1]);
    }
  }

  /** The canonical decimal text of a number is unique: it is the one `to_string` writes. */
  lemma {:induction false} CanonicalIsDecimalString(s: string)
    requires Canonical(s)
    ensures s == DecimalString(DecimalValue(s))
  {
    var last := s[|s| - 1];
    assert DigitChar(DigitValue(last)) == last;
    if |s| == 1 {
      assert s[..|s| - 1] == [] && DecimalValue([]) == 0;
    } else {
      var prefix := s[..|s| - 1];
      assert prefix[0] == s[0];
      DecimalValueLowerBound(prefix);
      CanonicalIsDecimalString(prefix);
      DecimalStringSnoc(DecimalValue(prefix), DigitValue(last));
      assert s == prefix + [last];
    }
  }

  /** `to_string` of `10 m + d`, for a positive `m`, is that of `m` followed by the digit `d`. */
  lemma DecimalStringSnoc(m: nat, d: nat)
    requires m >= 1 && d < 10
    ensures DecimalString(10 * m + d) == DecimalString(m) + [DigitChar(d)]
  {
    DivModDigit(m, d);
  }

  /** Splitting off the last decimal digit. */
  lemma DivModDigit(a: nat, d: nat)
    requires d < 10
    ensures (10 * a + d) / 10 == a && (10 * a + d) % 10 == d
  {
  }

  /** Parsing what `to_string` wrote gives back the number. */
  lemma ParseNumberRoundTrip(n: u16)
    ensures ParseNumber(DecimalString(n)) == Ok(n)
  {
    KeepDigitsOfDigits(DecimalString(n));
  }

  /** Characters that are not digits are dropped wherever they stand. */
  lemma ParseNumberIgnoresNonDigit(a: string, c: char, b: string)
    requires !IsDigit(c)
    ensures ParseNumber(a + [c] + b) == ParseNumber(a + b)
  {
    KeepDigitsAppend(a + [c], b);
    KeepDigitsAppend(a, [c]);
    KeepDigitsAppend(a, b);
    assert KeepDigits([c]) == [] by { assert [c][1..] == []; }
    assert KeepDigits(a + [c]) == KeepDigits(a);
  }

  /** A line without digits (a blank answer, say) reads as 0. */
  lemma ParseNumberNoDigits(s: string)
    requires forall i :: 0 <= i < |s| ==> !IsDigit(s[i])
    ensures ParseNumber(s) == Ok(0)
  {
    KeepDigitsNone(s);
  }

  /** A leading zero in the input is accepted and ignored ("0720" reads as 720). */
  lemma ParseNumberLeadingZero(s: string)
    ensures ParseNumber(['0'] + s) == ParseNumber(s)
  {
    KeepDigitsAppend(['0'], s);
    DecimalValueLeadingZero(KeepDigits(s));
  }

  /**
   * Six or more significant digits never fit a u16: the program takes the error exit
   * rather than wrapping around.
   */
  lemma ParseNumberTooManyDigits(s: string)
    requires |KeepDigits(s)| >= 6 && KeepDigits(s)[0] != '0'
    ensures ParseNumber(s) == Err(NotNumeric)
  {
    var d := KeepDigits(s);
    DecimalValueLowerBound(d);
    PowMonotone(5, |d| - 1);
  }

  lemma {:induction false} PowMonotone(m: nat, n: nat)
    requires m <= n
    ensures Pow10(m) <= Pow10(n)
  {
    if m < n {
      PowMonotone(m, n - 1);
    }
  }
}

=== FILE: progress.dfy ===
/**
 * Progress reporting: one bar per download and one status bar (main.rs:185-229), and
 * the two consumers that move them, `update_bar` and `update_status_bar`
 * (main.rs:260-282). A channel is the finite sequence of values its sender sends
 * before it is closed.
 */
module Progress {
  import opened Wrappers
  import opened Search
  import opened Labels

  const EpisodeFinished: string := "Episode Finished Downloading"
  const Success: string := "Success"
  const WaitingMessage: string := "Waiting...: "

  /** A progress bar: its total, its position, its message, and whether it is finished. */
  class Bar {
    var total: nat
    var current: nat
    var message: string
    var finished: bool

    /** `multi_bar.create_bar(total)`. */
    constructor (total: nat)
      ensures this.total == total && current == 0 && message == [] && !finished
    {
      this.total := total;
      current := 0;
      message := [];
      finished := false;
    }

    /** `progress_bar.set(n)`. */
    method Set(n: nat)
      modifies this
      ensures current == n
      ensures total == old(total) && message == old(message) && finished == old(finished)
    {
      current := n;
    }

    /** `progress_bar.inc()`. */
    method Inc()
      modifies this
      ensures current == old(current) + 1
      ensures total == old(total) && message == old(message) && finished == old(finished)
    {
      current := current + 1;
    }

    /** `progress_bar.message(m)`. */
    method SetMessage(m: string)
      modifies this
      ensures message == m
      ensures total == old(total) && current == old(current) && finished == old(finished)
    {
      message := m;
    }

    /** `progress_bar.finish()`: a bar short of its total is filled up to it. */
    method Finish()
      modifies this
      ensures finished && current == Filled(old(current), total)
      ensures total == old(total) && message == old(message)
    {
      if current < total {
        current := total;
      }
      finished := true;
    }
  }

  /** The position of a bar at `current` after `finish`: the larger of it and the total. */
  function Filled(current: nat, total: nat): (n: nat)
    ensures n >= current && n >= total
    ensures n == current || n == total
  {
    if current < total then total else current
  }

  /** Index of the first non-positive value (the end-of-download sentinel), or the length. */
  function SentinelAt(events: seq<int>): (k: nat)
    ensures k <= |events|
    ensures forall j :: 0 <= j < k ==> events[j] > 0
    ensures k < |events| ==> events[k] <= 0
  {
    if events == [] || events[0] <= 0 then 0 else 1 + SentinelAt(events[1..])
  }

  /** Whatever follows the sentinel is never looked at. */
  lemma {:induction false} SentinelAtIgnoresRest(events: seq<int>, rest: seq<int>)
    requires SentinelAt(events) < |events|
    ensures SentinelAt(events + rest) == SentinelAt(events)
  {
    if events[0] > 0 {
      assert (events + rest)[1..] == events[1..] + rest;
      SentinelAtIgnoresRest(events[1..], rest);
    }
  }

  /**
   * `update_bar`: the bar follows each positive value in turn and is finished by the
   * first non-positive one, which fills it up to its total; nothing more is read. A
   * channel closed before any sentinel leaves the bar at the last value, unfinished.
   */
  method UpdateBar(bar: Bar, events: seq<int>)
    modifies bar
    ensures var k := SentinelAt(events);
      var last := if k == 0 then old(bar.current) else events[k - 1];
      bar.current == (if k < |events| then Filled(last, bar.total) else last) &&
      bar.finished == (old(bar.finished) || k < |events|)
    ensures bar.total == old(bar.total) && bar.message == old(bar.message)
  {
    var i := 0;
    while i < |events|
      invariant 0 <= i <= |events|
      invariant forall j :: 0 <= j < i ==> events[j] > 0
      invariant bar.current == if i == 0 then old(bar.current) else events[i - 1]
      invariant bar.finished == old(bar.finished)
      invariant bar.total == old(bar.total) && bar.message == old(bar.message)
    {
      var progress := events[i];
      if progress > 0 {
        bar.Set(progress);
      } else {
        bar.Finish();
        assert SentinelAt(events) == i by { SentinelAtIs(events, i); }
        return;
      }
      i := i + 1;
    }
    SentinelAtIs(events, i);
  }

  /** The sentinel index is the first index where the stream stops being positive. */
  lemma SentinelAtIs(events: seq<int>, i: nat)
    requires i <= |events|
    requires forall j :: 0 <= j < i ==> events[j] > 0
    requires i < |events| ==> events[i] <= 0
    ensures SentinelAt(events) == i
  {
  }

  /** Index of the first "Success", or the length. */
  function SuccessAt(msgs: seq<string>): (k: nat)
    ensures k <= |msgs|
    ensures forall j :: 0 <= j < k ==> msgs[j] != Success
    ensures k < |msgs| ==> msgs[k] == Success
  {
    if msgs == [] || msgs[0] == Success then 0 else 1 + SuccessAt(msgs[1..])
  }

  /** Number of "Episode Finished Downloading" markers among the first `n` messages. */
  function Completions(msgs: seq<string>, n: nat): (c: nat)
    requires n <= |msgs|
    ensures c <= n
  {
    if n == 0 then 0
    else Completions(msgs, n - 1) + (if msgs[n - 1] == EpisodeFinished then 1 else 0)
  }

  /**
   * `update_status_bar`: every message received is shown (followed by a space), each
   * completion marker advances the bar by one, and the first "Success" finishes it
   * (filling it up to its total) and ends the loop.
   */
  method UpdateStatusBar(bar: Bar, msgs: seq<string>)
    modifies bar
    ensures var k := SuccessAt(msgs);
      var counted := old(bar.current) + Completions(msgs, k);
      bar.current == (if k < |msgs| then Filled(counted, bar.total) else counted) &&
      bar.finished == (old(bar.finished) || k < |msgs|) &&
      bar.message == (if msgs == [] then old(bar.message)
                      else if k < |msgs| then msgs[k] + " " else msgs[|msgs| - 1] + " ")
    ensures bar.total == old(bar.total)
  {
    var i := 0;
    while i < |msgs|
      invariant 0 <= i <= |msgs|
      invariant forall j :: 0 <= j < i ==> msgs[j] != Success
      invariant bar.current == old(bar.current) + Completions(msgs, i)
      invariant bar.finished == old(bar.finished)
      invariant bar.message == if i == 0 then old(bar.message) else msgs[i - 1] + " "
      invariant bar.total == old(bar.total)
    {
      var stop := ReadStatus(bar, msgs[i]);
      if stop {
        SuccessAtIs(msgs, i);
        return;
      }
      i := i + 1;
    }
    SuccessAtIs(msgs, i);
  }

  /**
   * One iteration of `update_status_bar`: the message is shown, a completion marker
   * advances the bar, and "Success" finishes it and stops the loop.
   */
  method ReadStatus(bar: Bar, progress: string) returns (stop: bool)
    modifies bar
    ensures stop <==> progress == Success
    ensures bar.message == progress + " "
    ensures bar.current == if stop then Filled(old(bar.current), bar.total)
      else old(bar.current) + (if progress == EpisodeFinished then 1 else 0)
    ensures bar.finished == (old(bar.finished) || stop)
    ensures bar.total == old(bar.total)
  {
    bar.SetMessage(progress + " ");
    stop := false;
    if progress == EpisodeFinished {
      assert |progress| != |Success|;
      bar.Inc();
    } else if progress == Success {
      bar.Finish();
      stop := true;
    }
  }

  /** The count looks only at the first `n` messages: what is appended later does not change it. */
  lemma {:induction false} CompletionsOfPrefix(msgs: seq<string>, rest: seq<string>, n: nat)
    requires n <= |msgs|
    ensures Completions(msgs + rest, n) == Completions(msgs, n)
  {
    if n > 0 {
      assert (msgs + rest)[n - 1] == msgs[n - 1];
      CompletionsOfPrefix(msgs, rest, n - 1);
    }
  }

  lemma SuccessAtIs(msgs: seq<string>, i: nat)
    requires i <= |msgs|
    requires forall j :: 0 <= j < i ==> msgs[j] != Success
    requires i < |msgs| ==> msgs[i] == Success
    ensures SuccessAt(msgs) == i
  {
  }

  /** Nothing after the first "Success" is looked at. */
  lemma {:induction false} SuccessAtIgnoresRest(msgs: seq<string>, rest: seq<string>)
    requires SuccessAt(msgs) < |msgs|
    ensures SuccessAt(msgs + rest) == SuccessAt(msgs)
  {
    if msgs[0] != Success {
      assert (msgs + rest)[1..] == msgs[1..] + rest;
      SuccessAtIgnoresRest(msgs[1..], rest);
    }
  }

  /** A run of `n` markers counts `n` completions. */
  lemma {:induction false} CompletionsOfMarkers(msgs: seq<string>, n: nat)
    requires n <= |msgs| && forall j :: 0 <= j < n ==> msgs[j] == EpisodeFinished
    ensures Completions(msgs, n) == n
  {
    if n > 0 {
      CompletionsOfMarkers(msgs, n - 1);
    }
  }

  /**
   * A stream with one completion marker per download and then "Success" stops at the
   * "Success" having counted one completion per download, so the status bar, created
   * with the number of downloads as its total, reaches exactly its total.
   */
  lemma StatusBarReachesTotal(msgs: seq<string>, n: nat)
    requires |msgs| == n + 1 && msgs[n] == Success
    requires forall j :: 0 <= j < n ==> msgs[j] == EpisodeFinished
    ensures SuccessAt(msgs) == n && Completions(msgs, n) == n
  {
    assert EpisodeFinished != Success by {
      assert |EpisodeFinished| != |Success|;
    }
    SuccessAtIs(msgs, n);
    CompletionsOfMarkers(msgs, n);
  }

  /**
   * main.rs:223-271: the status bar created with the number of downloads as its total,
   * fed one completion marker per download and then "Success", ends full and finished.
   */
  method RunStatusBar(msgs: seq<string>, n: nat) returns (bar: Bar)
    requires |msgs| == n + 1 && msgs[n] == Success
    requires forall j :: 0 <= j < n ==> msgs[j] == EpisodeFinished
    ensures bar.current == bar.total == n && bar.finished
  {
    bar := new Bar(n);
    StatusBarReachesTotal(msgs, n);
    UpdateStatusBar(bar, msgs);
  }

  /**
   * main.rs:195-208: the label of one download pushed onto the message buffer,
   * trimmed as `Label` says when the terminal width is known.
   */
  method AppendLabel(buffer: string, filename: string, width: Option<nat>) returns (message: string)
    ensures message == buffer + Label(filename, width)
  {
    message := buffer;
    match width {
      case Some(w) =>
        if |filename| > w / 2 {
          message := AppendTrimmed(message, filename, w / 2);
        } else {
          message := message + filename;
        }
      case None =>
        message := message + filename;
    }
    message := message + ": ";
  }

  /** main.rs:197-204: the head (on narrow terminals), "..." and the tail pushed onto the buffer. */
  method AppendTrimmed(buffer: string, filename: string, acceptableLength: nat) returns (message: string)
    requires |filename| > acceptableLength / 2
    ensures message == buffer + Trimmed(filename, acceptableLength)
  {
    var firstHalf := filename[..acceptableLength / 2];
    var secondHalf := filename[|filename| - (acceptableLength / 2 + 1)..];
    message := buffer;
    if acceptableLength < 50 {
      message := message + firstHalf;
    }
    message := message + "...";
    message := message + secondHalf;
  }

  /** A new bar of the given total, showing the given message. */
  method LabelledBar(total: nat, message: string) returns (bar: Bar)
    ensures fresh(bar)
    ensures bar.total == total && bar.message == message && bar.current == 0 && !bar.finished
  {
    bar := new Bar(total);
    bar.SetMessage(message);
  }

  /** A bar as main.rs creates it for one package: sized by it, labelled with its name, not started. */
  predicate BarFor(bar: Bar, pkg: Package, width: Option<nat>)
    reads bar
  {
    bar.total == pkg.sizekbits && bar.message == Label(pkg.filename, width) &&
    bar.current == 0 && !bar.finished
  }

  /** No bar occurs twice. */
  predicate Distinct(bars: seq<Bar>) {
    forall i, j :: 0 <= i < j < |bars| ==> bars[i] != bars[j]
  }

  /** A bar that is not yet in a list of distinct bars keeps the list distinct when added. */
  lemma DistinctSnoc(bars: seq<Bar>, bar: Bar)
    requires Distinct(bars) && bar !in bars
    ensures Distinct(bars + [bar])
  {
  }

  /**
   * The loop of main.rs:190-229: one bar per kept package, sized by the package and
   * labelled through a message buffer that is cleared after each bar, then the status
   * bar, sized by the number of packages.
   */
  method CreateBars(pkgs: seq<Package>, width: Option<nat>) returns (bars: seq<Bar>, status: Bar)
    ensures |bars| == |pkgs|
    ensures forall i :: 0 <= i < |pkgs| ==> fresh(bars[i]) && BarFor(bars[i], pkgs[i], width)
    ensures Distinct(bars)
    ensures fresh(status) && status.total == |pkgs| && status.message == WaitingMessage
    ensures status.current == 0 && !status.finished
    ensures status !in bars
  {
    var pbMessage: string := [];
    bars := [];
    var i := 0;
    while i < |pkgs|
      invariant 0 <= i <= |pkgs| && |bars| == i
      invariant pbMessage == []
      invariant forall j :: 0 <= j < i ==> fresh(bars[j]) && BarFor(bars[j], pkgs[j], width)
      invariant Distinct(bars)
    {
      pbMessage := AppendLabel(pbMessage, pkgs[i].filename, width);
      var bar := LabelledBar(pkgs[i].sizekbits, pbMessage);
      pbMessage := [];
      DistinctSnoc(bars, bar);
      bars := bars + [bar];
      i := i + 1;
    }
    status := new Bar(|pkgs|);
    status.SetMessage(WaitingMessage);
  }
}

=== FILE: request.dfy ===
/**
 * The request handed to the IRC downloader (main.rs:235-241): the fixed server,
 * channel and nickname, and one (bot, package number) pair per kept package.
 */
module Request {
  import opened Wrappers
  import opened Numbers
  import opened Search

  const IrcServer: string := "irc.rizon.net:6667"
  const IrcChannel: string := "nibl"
  const IrcNickname: string := "randomRustacean"

  datatype IrcRequest = IrcRequest(
    server: string,
    channel: string,
    nickname: string,
    bot: seq<string>,
    packages: seq<string>)

  /**
   * `bot` and `packages` are index-aligned with the kept packages, and each entry of
   * `packages` is the decimal text of that package's number.
   */
  function BuildRequest(pkgs: seq<Package>): (r: IrcRequest)
    ensures r.server == IrcServer && r.channel == IrcChannel && r.nickname == IrcNickname
    ensures |r.bot| == |pkgs| && |r.packages| == |pkgs|
    ensures forall i :: 0 <= i < |pkgs| ==> r.bot[i] == pkgs[i].bot
    ensures forall i :: 0 <= i < |pkgs| ==>
      Canonical(r.packages[i]) && DecimalValue(r.packages[i]) == pkgs[i].number
  {
    IrcRequest(
      IrcServer, IrcChannel, IrcNickname,
      seq(|pkgs|, i requires 0 <= i < |pkgs| => pkgs[i].bot),
      seq(|pkgs|, i requires 0 <= i < |pkgs| => DecimalString(pkgs[i].number)))
  }

  /** Requests are issued in package order: building over a concatenation concatenates. */
  lemma BuildRequestAppend(a: seq<Package>, b: seq<Package>)
    ensures BuildRequest(a + b).bot == BuildRequest(a).bot + BuildRequest(b).bot
    ensures BuildRequest(a + b).packages == BuildRequest(a).packages + BuildRequest(b).packages
  {
    var r, ra, rb := BuildRequest(a + b), BuildRequest(a), BuildRequest(b);
    forall i | 0 <= i < |a + b|
      ensures r.bot[i] == (ra.bot + rb.bot)[i]
      ensures r.packages[i] == (ra.packages + rb.packages)[i]
    {
      if i < |a| {
        assert (a + b)[i] == a[i];
      } else {
        assert (a + b)[i] == b[i - |a|];
      }
    }
  }
}

=== FILE: run.dfy ===
/**
 * main from the reading of its inputs up to the hand-over to the IRC downloader:
 * settings, normalisation, the episode search, the "nothing found" exit, and the
 * request, folder name and play list that the download is then started with.
 */
module Run {
  import opened Wrappers
  import opened Failures
  import opened Settings
  import opened Episodes
  import opened Search
  import opened Request

  /** Everything the download phase is started with. */
  datatype Download = Download(
    dir: string,
    packages: seq<Package>,
    request: IrcRequest,
    play: Option<seq<string>>)

  /**
   * main.rs:244: a player is started when asked for and either there is one file or the
   * player can follow a list (the `mpv` build feature); it gets the file names in order.
   */
  function PlayList(play: bool, pkgs: seq<Package>, mpvFeature: bool): (r: Option<seq<string>>)
    ensures r.Some? <==> play && (|pkgs| == 1 || mpvFeature)
    ensures r.Some? ==> |r.value| == |pkgs| && forall i :: 0 <= i < |pkgs| ==> r.value[i] == pkgs[i].filename
  {
    if play && (|pkgs| == 1 || mpvFeature) then
      Some(seq(|pkgs|, i requires 0 <= i < |pkgs| => pkgs[i].filename))
    else None
  }

  /**
   * main.rs:60-248 without the I/O. Either the run stops with the failure that ends the
   * program, or there is at least one package, every package is a media file found by
   * the episode loop in loop order, and the request lists exactly those packages.
   */
  method Prepare(inv: Invocation, find: Finder, mpvFeature: bool) returns (r: Result<Download, Failure>)
    ensures SettingsOf(inv).Err? ==> r == Err(SettingsOf(inv).error)
    ensures SettingsOf(inv).Ok? && PlanOf(SettingsOf(inv).value).Err? ==> r == Err(EpisodeOverflow)
    ensures SettingsOf(inv).Ok? && PlanOf(SettingsOf(inv).value).Ok? ==>
      var plan := PlanOf(SettingsOf(inv).value).value;
      var kept := KeepMedia(Lookups(plan, find));
      (kept == [] <==> r == Err(NothingToDownload)) &&
      (kept != [] ==> r.Ok? && r.value.packages == kept && r.value.dir == plan.query)
    ensures r.Ok? ==>
      |r.value.packages| > 0 &&
      r.value.request == BuildRequest(r.value.packages) &&
      r.value.play == PlayList(SettingsOf(inv).value.play, r.value.packages, mpvFeature)
  {
    var settings :- SettingsOf(inv);
    var plan :- Normalise(settings);
    var dccpackages, numEpisodes := SearchEpisodes(plan, find);
    if numEpisodes == 0 {
      return Err(NothingToDownload);
    }
    var request := BuildRequest(dccpackages);
    r := Ok(Download(plan.query, dccpackages, request, PlayList(settings.play, dccpackages, mpvFeature)));
  }
}

=== FILE: search.dfy ===
/**
 * The episode loop of main: one lookup per episode of the plan, in order; a found
 * package is kept only when its file name has a media extension.
 */
module Search {
  import opened Wrappers
  import opened Numbers
  import opened Media
  import opened Episodes

  /** A package as the finder describes it. */
  datatype Package = Package(filename: string, bot: string, number: nat, sizekbits: nat)

  /** What `anime_find::find_package` answers for one lookup. */
  datatype Lookup = Found(package: Package) | NotFound(reason: string)

  /** The finder, an oracle: the query text and the episode argument decide its answer. */
  type Finder = (string, Option<u16>) -> Lookup

  /** Number of iterations of `for i in first..last + 1`. */
  function EpisodeCount(plan: SearchPlan): (n: nat)
    ensures plan.first + n <= 0x1_0000
  {
    if plan.last >= plan.first then plan.last - plan.first + 1 else 0
  }

  /** The finder's answer for the iteration of episode `i`. */
  function LookupAt(plan: SearchPlan, find: Finder, i: u16): Lookup {
    find(plan.query, FinderArg(plan.episode, plan.lastEp, i))
  }

  /** The finder's answers for the iterations of episodes first .. end - 1, in loop order. */
  function LookupsBefore(plan: SearchPlan, find: Finder, end: int): (r: seq<Lookup>)
    requires plan.first <= end <= plan.first + EpisodeCount(plan)
    ensures |r| == end - plan.first
    decreases end - plan.first
  {
    if end == plan.first then [] else LookupsBefore(plan, find, end - 1) + [LookupAt(plan, find, end - 1)]
  }

  /** The finder's answers, one per loop iteration, in loop order. */
  function Lookups(plan: SearchPlan, find: Finder): (r: seq<Lookup>)
    ensures |r| == EpisodeCount(plan)
  {
    LookupsBefore(plan, find, plan.first + EpisodeCount(plan))
  }

  /** The answer at position j is the finder's answer for episode first + j. */
  lemma {:induction false} LookupsAt(plan: SearchPlan, find: Finder, end: int, j: nat)
    requires plan.first + j < end <= plan.first + EpisodeCount(plan)
    ensures LookupsBefore(plan, find, end)[j] == LookupAt(plan, find, plan.first + j)
    decreases end
  {
    if plan.first + j < end - 1 {
      LookupsAt(plan, find, end - 1, j);
    }
  }

  /** An answer is kept when the finder found a package whose file name is a media file. */
  predicate Keeps(l: Lookup) {
    l.Found? && IsMediaFile(l.package.filename)
  }

  /** The media packages among the answers, in answer order. */
  function KeepMedia(rs: seq<Lookup>): (r: seq<Package>)
    ensures |r| <= |rs|
  {
    if rs == [] then []
    else if Keeps(rs[|rs| - 1]) then KeepMedia(rs[..|rs| - 1]) + [rs[|rs| - 1].package]
    else KeepMedia(rs[..|rs| - 1])
  }

  /** Filtering distributes over concatenation: kept packages stay in loop order. */
  lemma {:induction false} KeepMediaAppend(a: seq<Lookup>, b: seq<Lookup>)
    ensures KeepMedia(a + b) == KeepMedia(a) + KeepMedia(b)
  {
    if b == [] {
      assert a + b == a;
    } else {
      assert (a + b)[..|a + b| - 1] == a + b[..|b| - 1];
      KeepMediaAppend(a, b[..|b| - 1]);
    }
  }

  /** One more answer adds its package at the end when it is kept, and nothing otherwise. */
  lemma KeepMediaSnoc(rs: seq<Lookup>, l: Lookup)
    ensures KeepMedia(rs + [l]) == if Keeps(l) then KeepMedia(rs) + [l.package] else KeepMedia(rs)
  {
    assert (rs + [l])[..|rs|] == rs;
  }

  /** A package is kept exactly when the finder returned it and it is a media file. */
  lemma {:induction false} KeepMediaMembership(rs: seq<Lookup>, p: Package)
    ensures p in KeepMedia(rs) <==> Found(p) in rs && IsMediaFile(p.filename)
  {
    if rs != [] {
      var init := rs[..|rs| - 1];
      KeepMediaMembership(init, p);
      assert rs == init + [rs[|rs| - 1]];
    }
  }

  /** One more iteration appends the filtered answer for episode i. */
  lemma KeepMediaStep(plan: SearchPlan, find: Finder, i: u16)
    requires plan.first <= i <= plan.last
    ensures var l := LookupAt(plan, find, i);
      KeepMedia(LookupsBefore(plan, find, i + 1)) ==
        if Keeps(l) then KeepMedia(LookupsBefore(plan, find, i)) + [l.package]
        else KeepMedia(LookupsBefore(plan, find, i))
  {
    KeepMediaSnoc(LookupsBefore(plan, find, i), LookupAt(plan, find, i));
  }

  /**
   * The body of the episode loop: one lookup, then the extension filter; a media
   * package is pushed and counted, anything else is skipped with a warning.
   */
  method SearchOne(plan: SearchPlan, find: Finder, i: u16, packages: seq<Package>, numEpisodes: nat)
    returns (packagesAfter: seq<Package>, numEpisodesAfter: nat)
    ensures var l := LookupAt(plan, find, i);
      if Keeps(l) then packagesAfter == packages + [l.package] && numEpisodesAfter == numEpisodes + 1
      else packagesAfter == packages && numEpisodesAfter == numEpisodes
  {
    packagesAfter, numEpisodesAfter := packages, numEpisodes;
    var answer := find(plan.query, FinderArg(plan.episode, plan.lastEp, i));
    match answer {
      case Found(p) =>
        match Extension(p.filename) {
          case Some(ext) =>
            if IsMediaExtension(ext) {
              packagesAfter := packagesAfter + [p];
              numEpisodesAfter := numEpisodesAfter + 1;
            }
            // otherwise: "Warning, this is not a media file! Skipping"
          case None =>
            // "Warning, this file has no extension, skipping"
        }
      case NotFound(_) =>
        // the finder's error is printed and the loop goes on
    }
  }

  /** When the loop stops, the answers seen so far are all the answers. */
  lemma SearchDone(plan: SearchPlan, find: Finder, i: int, packages: seq<Package>)
    requires plan.first <= i <= plan.first + EpisodeCount(plan) && plan.last + 1 <= i
    requires packages == KeepMedia(LookupsBefore(plan, find, i))
    ensures packages == KeepMedia(Lookups(plan, find))
  {
    assert i == plan.first + EpisodeCount(plan);
  }

  /**
   * The episode loop: `packages` is `dccpackages`, `numEpisodes` counts the pushes.
   * The result is the media packages among the finder's answers, in episode order.
   */
  method SearchEpisodes(plan: SearchPlan, find: Finder) returns (packages: seq<Package>, numEpisodes: nat)
    ensures packages == KeepMedia(Lookups(plan, find))
    ensures numEpisodes == |packages|
  {
    packages := [];
    numEpisodes := 0;
    var i: int := plan.first;
    while i < plan.last + 1
      invariant plan.first <= i <= plan.first + EpisodeCount(plan)
      invariant packages == KeepMedia(LookupsBefore(plan, find, i))
      invariant numEpisodes == |packages|
    {
      KeepMediaStep(plan, find, i);
      packages, numEpisodes := SearchOne(plan, find, i, packages, numEpisodes);
      i := i + 1;
    }
    SearchDone(plan, find, i, packages);
  }

  /** With neither a start nor an end there is exactly one lookup, made without an episode. */
  lemma SingleLookupWithoutEpisode(plan: SearchPlan, find: Finder)
    requires plan.first == plan.last && plan.episode.None? && plan.lastEp.None?
    ensures Lookups(plan, find) == [find(plan.query, None)]
  {
    assert FinderArg(plan.episode, plan.lastEp, plan.first) == None;
    assert LookupsBefore(plan, find, plan.first) == [];
  }

  /**
   * The i-th lookup asks about episode first + i, with a number exactly when a start
   * or an end is part of the plan.
   */
  lemma LookupOrder(plan: SearchPlan, find: Finder, i: nat)
    requires i < EpisodeCount(plan)
    ensures plan.first + i <= plan.last
    ensures Lookups(plan, find)[i] ==
      find(plan.query, if plan.episode.Some? || plan.lastEp.Some? then Some(plan.first + i) else None)
  {
    LookupsAt(plan, find, plan.first + EpisodeCount(plan), i);
    var arg := FinderArg(plan.episode, plan.lastEp, plan.first + i);
    assert arg == if plan.episode.Some? || plan.lastEp.Some? then Some(plan.first + i) else None;
  }
}

=== FILE: settings.dfy ===
/**
 * What the program reads before searching: either the already-parsed command-line
 * options (`-q`, `-e`, `-t`, `-r`, `-p`) or the five answers of the interactive prompt,
 * turned into one `Settings` value.
 */
module Settings {
  import opened Wrappers
  import opened Failures
  import opened Numbers

  /** `matches.opt_str(..)` for each option, and whether `-p` was present. */
  datatype CliOptions = CliOptions(
    query: Option<string>,
    episode: Option<string>,
    to: Option<string>,
    resolution: Option<string>,
    play: bool)

  /** The raw lines answered to the five prompts, in the order they are asked. */
  datatype PromptAnswers = PromptAnswers(
    name: string,
    resolution: string,
    start: string,
    to: string,
    play: string)

  /** Command-line mode when the program got arguments, prompt mode otherwise. */
  datatype Invocation = Cli(options: CliOptions) | Prompt(answers: PromptAnswers)

  datatype Settings = Settings(
    query: string,
    resolution: Option<u16>,
    episode: Option<u16>,
    lastEp: Option<u16>,
    play: bool)

  /** `get_cli_input` removes every '\n' and '\r' from the line it read. */
  function StripLineBreaks(s: string): (r: string)
    ensures forall i :: 0 <= i < |r| ==> r[i] != '\n' && r[i] != '\r'
    ensures |r| <= |s|
  {
    if s == [] then []
    else (if s[0] == '\n' || s[0] == '\r' then [] else [s[0]]) + StripLineBreaks(s[1..])
  }

  lemma {:induction false} StripLineBreaksKeepsPlainLines(s: string)
    requires forall i :: 0 <= i < |s| ==> s[i] != '\n' && s[i] != '\r'
    ensures StripLineBreaks(s) == s
  {
    if s != [] {
      StripLineBreaksKeepsPlainLines(s[1..]);
    }
  }

  /** Stripping works piece by piece: the pieces of a line are stripped separately and kept in order. */
  lemma {:induction false} StripLineBreaksAppend(a: string, b: string)
    ensures StripLineBreaks(a + b) == StripLineBreaks(a) + StripLineBreaks(b)
  {
    if a == [] {
      assert a + b == b;
    } else {
      assert (a + b)[0] == a[0] && (a + b)[1..] == a[1..] + b;
      StripLineBreaksAppend(a[1..], b);
    }
  }

  /**
   * Exactly '\n' and '\r' are removed, wherever they stand; every other character is
   * kept, in its place between what precedes and what follows it.
   */
  lemma StripLineBreaksAround(a: string, c: char, b: string)
    ensures StripLineBreaks(a + [c] + b) ==
      StripLineBreaks(a) + (if c == '\n' || c == '\r' then [] else [c]) + StripLineBreaks(b)
  {
    var k: string := if c == '\n' || c == '\r' then [] else [c];
    assert StripLineBreaks([c]) == k by {
      assert [c][1..] == [];
    }
    StripLineBreaksAppend(a + [c], b);
    StripLineBreaksAppend(a, [c]);
  }

  /** Stripping twice is stripping once. */
  lemma StripLineBreaksIdempotent(s: string)
    ensures StripLineBreaks(StripLineBreaks(s)) == StripLineBreaks(s)
  {
    StripLineBreaksKeepsPlainLines(StripLineBreaks(s));
  }

  /** `-r`: absent means 720, the literal "0" means no resolution, anything else is parsed. */
  function CliResolution(r: Option<string>): (res: Result<Option<u16>, Failure>)
    ensures res == Ok(None) <==> r == Some("0")
    ensures r.None? ==> res == Ok(Some(720))
    ensures r.Some? && r.value != "0" ==>
      (res.Ok? <==> ParseNumber(r.value).Ok?) &&
      (res.Ok? ==> res.value == Some(ParseNumber(r.value).value))
    ensures res.Err? ==> res.error == NotNumeric
  {
    match r
    case Some("0") => Ok(None)
    case Some(s) =>
      var n :- ParseNumber(s);
      Ok(Some(n))
    case None => Ok(Some(720))
  }

  /** Writing a resolution in decimal on the command line asks for exactly that resolution; 0 asks for none. */
  lemma CliResolutionOfDecimal(n: u16)
    ensures CliResolution(Some(DecimalString(n))) == Ok(if n == 0 then None else Some(n))
  {
    ParseNumberRoundTrip(n);
  }

  /** Only the literal "0" switches the resolution off: "00" asks for resolution 0. */
  lemma CliResolutionZeroIsLiteral()
    ensures CliResolution(Some("00")) == Ok(Some(0))
  {
    assert KeepDigits("00") == "00";
  }

  /** The prompt's shortcuts: 0 is no resolution, 1, 2 and 3 stand for 480, 720 and 1080. */
  function ResolutionShortcut(n: u16): (r: Option<u16>)
    ensures r.None? <==> n == 0
    ensures n == 1 ==> r == Some(480)
    ensures n == 2 ==> r == Some(720)
    ensures n == 3 ==> r == Some(1080)
    ensures n > 3 ==> r == Some(n)
  {
    match n
    case 0 => None
    case 1 => Some(480)
    case 2 => Some(720)
    case 3 => Some(1080)
    case _ => Some(n)
  }

  /** `to_ascii_lowercase`: ASCII capitals become small letters, everything else stays. */
  function AsciiLower(s: string): (r: string)
    ensures |r| == |s|
    ensures forall i :: 0 <= i < |r| ==> !('A' <= r[i] <= 'Z')
    ensures forall i :: 0 <= i < |s| && !('A' <= s[i] <= 'Z') ==> r[i] == s[i]
    ensures forall i :: 0 <= i < |s| && 'A' <= s[i] <= 'Z' ==> r[i] as int == s[i] as int + 32
  {
    seq(|s|, i requires 0 <= i < |s| =>
      if 'A' <= s[i] <= 'Z' then ((s[i] as int) - ('A' as int) + ('a' as int)) as char else s[i])
  }

  /** `to_ascii_lowercase().eq("y")`. */
  predicate PlayAnswer(s: string) {
    AsciiLower(s) == "y"
  }

  /** Playback is asked for by exactly "y" or "Y". */
  lemma PlayAnswerIff(s: string)
    ensures PlayAnswer(s) <==> s == "y" || s == "Y"
  {
    if PlayAnswer(s) {
      assert |s| == 1 && AsciiLower(s)[0] == 'y';
    }
  }

  /** Command-line mode, in the order main.rs evaluates the options. */
  function FromCli(o: CliOptions): (r: Result<Settings, Failure>)
    ensures r.Ok? ==> o.query.Some? && r.value.query == o.query.value && r.value.play == o.play
    ensures r.Ok? ==> CliResolution(o.resolution) == Ok(r.value.resolution)
    ensures r.Ok? ==> (r.value.episode.Some? <==> o.episode.Some?) && (r.value.lastEp.Some? <==> o.to.Some?)
    ensures r.Ok? && o.episode.Some? ==> ParseNumber(o.episode.value) == Ok(r.value.episode.value)
    ensures r.Ok? && o.to.Some? ==> ParseNumber(o.to.value) == Ok(r.value.lastEp.value)
    ensures r.Ok? <==>
      CliResolution(o.resolution).Ok? && o.query.Some? &&
      (o.episode.Some? ==> ParseNumber(o.episode.value).Ok?) &&
      (o.to.Some? ==> ParseNumber(o.to.value).Ok?)
    ensures CliResolution(o.resolution).Ok? && o.query.None? ==> r == Err(MissingQuery)
    ensures r.Err? ==> r.error == MissingQuery || r.error == NotNumeric
    ensures r.Err? && (o.query.Some? || CliResolution(o.resolution).Err?) ==> r.error == NotNumeric
  {
    var resolution :- CliResolution(o.resolution);
    if o.query.None? then Err(MissingQuery)
    else
      var episode :- OptionalNumber(o.episode);
      var lastEp :- OptionalNumber(o.to);
      Ok(Settings(o.query.value, resolution, episode, lastEp, o.play))
  }

  /** `if let Some(x) = matches.opt_str(..) { Some(parse_number(x)) }`. */
  function OptionalNumber(s: Option<string>): (r: Result<Option<u16>, Failure>)
    ensures r.Ok? <==> s.None? || ParseNumber(s.value).Ok?
    ensures r.Ok? ==> (r.value.Some? <==> s.Some?)
    ensures r.Ok? && s.Some? ==> r.value.value == ParseNumber(s.value).value
    ensures r.Err? ==> r.error == NotNumeric
  {
    match s
    case None => Ok(None)
    case Some(t) =>
      var n :- ParseNumber(t);
      Ok(Some(n))
  }

  /**
   * Prompt mode. A start of 0 (or a blank line) is no start; a "to" of 0 means the
   * same as the start.
   */
  function FromPrompt(a: PromptAnswers): (r: Result<Settings, Failure>)
    ensures r.Ok? <==>
      ParseNumber(StripLineBreaks(a.resolution)).Ok? &&
      ParseNumber(StripLineBreaks(a.start)).Ok? &&
      ParseNumber(StripLineBreaks(a.to)).Ok?
    ensures r.Ok? ==> r.value.query == StripLineBreaks(a.name)
    ensures r.Ok? ==> r.value.resolution == ResolutionShortcut(ParseNumber(StripLineBreaks(a.resolution)).value)
    ensures r.Ok? ==> var e := ParseNumber(StripLineBreaks(a.start)).value;
      (r.value.episode.None? <==> e == 0) && (e != 0 ==> r.value.episode == Some(e))
    ensures r.Ok? ==> var b := ParseNumber(StripLineBreaks(a.to)).value;
      b != 0 ==> r.value.lastEp == Some(b)
    ensures r.Ok? ==> r.value.episode != Some(0) && r.value.lastEp != Some(0)
    ensures r.Ok? && ParseNumber(StripLineBreaks(a.to)) == Ok(0) ==> r.value.lastEp == r.value.episode
    ensures r.Ok? ==> (r.value.play <==> PlayAnswer(StripLineBreaks(a.play)))
    ensures r.Err? ==> r.error == NotNumeric
  {
    var query := StripLineBreaks(a.name);
    var res :- ParseNumber(StripLineBreaks(a.resolution));
    var e :- ParseNumber(StripLineBreaks(a.start));
    var episode: Option<u16> := if e == 0 then None else Some(e);
    var b :- ParseNumber(StripLineBreaks(a.to));
    var lastEp: Option<u16> := if b == 0 then (if episode.Some? then episode else None) else Some(b);
    Ok(Settings(query, ResolutionShortcut(res), episode, lastEp, PlayAnswer(StripLineBreaks(a.play))))
  }

  /** Prompt answers written as decimal numbers greater than 3 come through unchanged. */
  lemma PromptResolutionOfDecimal(n: u16)
    requires n > 3
    ensures ParseNumber(DecimalString(n)).Ok? && ResolutionShortcut(ParseNumber(DecimalString(n)).value) == Some(n)
  {
    ParseNumberRoundTrip(n);
  }

  /**
   * Reading the settings fails only on a number that does not fit a u16 or, on the
   * command line, a missing query.
   */
  function SettingsOf(inv: Invocation): (r: Result<Settings, Failure>)
    ensures r.Err? ==> r.error == NotNumeric || (inv.Cli? && r.error == MissingQuery)
  {
    match inv
    case Cli(o) => FromCli(o)
    case Prompt(a) => FromPrompt(a)
  }
}

=== FILE: wrappers.dfy ===
/** Option and Result, the shapes Rust's `Option` and `Result` take in this model. */
module Wrappers {

  datatype Option<+T> = None | Some(value: T) {

    /** Rust's `unwrap_or`. */
    function GetOr(default: T): T {
      match this
      case Some(v) => v
      case None => default
    }

    /** Rust's `Option::or`: this value if present, otherwise `other`. */
    function Or(other: Option<T>): Option<T> {
      if Some? then this else other
    }

    /** Rust's `Option::and`: `other` if this is present, otherwise None. */
    function And<U>(other: Option<U>): Option<U> {
      if Some? then other else None
    }
  }

  datatype Result<+T, +E> = Ok(value: T) | Err(error: E) {

    predicate IsFailure() {
      Err?
    }

    function PropagateFailure<U>(): Result<U, E>
      requires Err?
    {
      Err(error)
    }

    function Extract(): T
      requires Ok?
    {
      value
    }
  }
}

/** The ways the program ends early instead of starting the downloads. */
module Failures {

  datatype Failure =
    | NotNumeric         // parse_number: digits that do not fit a u16; prints "Input must be numeric." and exits
    | MissingQuery       // command-line mode without -q: `opt_str("q").unwrap()` panics
    | EpisodeOverflow    // last episode 65535: the range bound `last + 1` overflows u16
    | NothingToDownload  // no media package was found for any episode: exit(1)
}
